=== FILE: README.md ===
# Email attachment router — a Dafny model

This project models the routing decision of `lambda_handler` in
`EmailReceiving.py`, a serverless function that takes an inbound email and
files its attachments in an object-storage bucket. The model covers:

- **The error ladder.** The handler runs three request-level checks, in this order:
  1. a missing or empty `content` gives "Missing email content";
  2. a base64 or MIME failure gives "Failed to parse email";
  3. a missing or empty Subject header gives "Missing email subject".
- **The subject folder.** This is the subject with white space stripped from both ends.
- **Keyword classification.** The filename is lower-cased. The keywords `lecture`, `hw` and
  `written assignment` are tried in that order, and the first one that occurs in the name wins.
- **The key format.** Keys are `subject_folder + "/" + subfolder + "/" + filename`. The
  filename is used exactly as given, not lower-cased.
- **The `uploaded_files` list.** These are the keys of the routed attachments whose upload
  `try` body completed without raising, in message order. The status is "success" however many writes failed.

Everything is pure and total. The handler is the function
`EmailReceiving.LambdaHandler(event, parse)`. It has two inputs:

- `parse` is an oracle that stands for base64 decoding followed by MIME parsing.
  It returns `None` for either failure.
- Each attachment record carries a `stored` flag. This flag says whether the `try` body at
  EmailReceiving.py:79-84 ran to completion: the payload read, the bucket write, the
  success `print` and the append. An exception anywhere in that body, including in the
  `print` after a write that succeeded, leaves the key unreported, so such an object can
  be in the bucket without appearing in `uploaded_files`. Elsewhere in this document and
  in the model, "its write succeeded" (or "written", "stored") is shorthand for this flag.

The handler's result mirrors the returned dictionary: a `status`, plus either a `message`
or an `uploaded_files` list.

Modules:

- `Wrappers` (`wrappers.dfy`): `Option`.
- `Text` (`text.dfy`): Python's `str.strip()`, an ASCII `str.lower()`, and the `in`
  substring test. Strip and the substring test each have a declarative definition and a
  proof that the two agree; Lower is defined directly, code point by code point, shown
  idempotent, and checked letter by letter against the alphabet written out.
- `Sequences` (`sequences.dfy`): order-preserving sub-sequences.
- `EmailReceiving` (`email_receiving.dfy`): the data model, the keyword table, the handler,
  the two loops as written (`ScanKeywords`, `UploadAttachments`) and the properties.
- `Scenarios` (`scenarios.dfy`): worked examples on concrete messages.

The subject check runs before the subject is stripped: the emptiness test `not subject`
at EmailReceiving.py:41 looks at the unstripped header, and `.strip()` runs only at :46.
So a subject made only of white space passes the check and becomes an empty folder name.
The model follows the code: see `EmailReceiving.WhitespaceSubjectPasses` and
`Scenarios.BlankSubject`.

## Model

| member | source | states |
|---|---|---|
| `EmailReceiving.LambdaHandler` | EmailReceiving.py:24-93 | every result is either an error carrying a message and no file list, or a success carrying a file list and no message |
| `EmailReceiving.Present` | EmailReceiving.py:25 | definition: Python's `not x` negated for an optional string (present and not empty), used at :25, :41 and :61; see ErrorLadder and PlanPartSkip |
| `EmailReceiving.ErrorLadder` | EmailReceiving.py:24-43 | each of the three error messages appears exactly when its check is the first to fail; status is "success" exactly when all three checks pass, whatever the write outcomes |
| `EmailReceiving.ContentCheckedFirst` | EmailReceiving.py:24-27 | a missing or empty `content` gives "Missing email content", and the result is the same for every parser, so no attachment is examined |
| `EmailReceiving.ParseCheckedBeforeSubject` | EmailReceiving.py:29-37 | non-empty content that fails to decode or parse gives "Failed to parse email" and no file list |
| `EmailReceiving.WhitespaceSubjectPasses` | EmailReceiving.py:40-46 | a non-empty subject made only of white space passes the subject check; the invocation succeeds and every key starts with "/" (empty folder) |
| `Text.Strip` | EmailReceiving.py:46 | the folder is a contiguous slice of the subject whose ends are not white space, with only white space cut away around it; it is empty exactly when the subject is all white space |
| `Text.StripUnique` | EmailReceiving.py:46 | any string meeting that description is the stripped subject, so the description determines the folder |
| `Text.StripIdempotent` | EmailReceiving.py:46 | stripping the folder again changes nothing |
| `Text.IsSpace` | EmailReceiving.py:46 | definition: the code points Python's `str.isspace` accepts, the set `.strip()` removes; see Strip and StripUnique |
| `Text.LowerChar` | EmailReceiving.py:66 | a lower-cased code point is never an upper-case ASCII letter, and a code point that is not one is left unchanged |
| `Text.LowerCharAlphabet` | EmailReceiving.py:66 | against the alphabet written out: the i-th capital letter is lower-cased to the i-th small letter |
| `Text.UpperIsAlphabet` | EmailReceiving.py:66 | the letters `.lower()` changes in this model are exactly the 26 capitals of the written-out alphabet |
| `Text.Lower` | EmailReceiving.py:66 | definition: `filename.lower()` applied code point by code point; see LowerIdempotent and ClassifyIgnoresCase |
| `Text.Contains` | EmailReceiving.py:70 | `keyword in lower_filename` holds exactly when the keyword occurs as a contiguous block of the name (the empty keyword occurs everywhere) |
| `Text.LowerIdempotent` | EmailReceiving.py:66 | the lower-cased name holds no upper-case ASCII letter, and lower-casing it again changes nothing |
| `EmailReceiving.KeywordMapping` | EmailReceiving.py:50-54 | definition: the keyword table in the dictionary's insertion order; see ClassifyInOrder and ClassifyTargets |
| `EmailReceiving.FirstMatch` | EmailReceiving.py:67-72 | the scan returns the index of a rule whose keyword occurs with no earlier rule's keyword occurring, and returns nothing exactly when no keyword occurs |
| `EmailReceiving.FirstMatchUnique` | EmailReceiving.py:69-72 | any index described as the first match is the one the scan returns |
| `EmailReceiving.Classify` | EmailReceiving.py:50-72 | no subfolder exactly when no keyword occurs in the lower-cased name; otherwise the subfolder of the first rule, in table order, whose keyword occurs |
| `EmailReceiving.ClassifyInOrder` | EmailReceiving.py:50-72 | classification is "lecture" if that occurs in the lower-cased name, else "hw" if that occurs, else "written assignment" if that occurs, else nothing |
| `EmailReceiving.ClassifyIgnoresCase` | EmailReceiving.py:66 | a name and its lower-cased form are routed alike |
| `EmailReceiving.ClassifyTargets` | EmailReceiving.py:50-54 | every chosen subfolder is one of "lecture", "hw", "written assignment" |
| `EmailReceiving.ScanKeywords` | EmailReceiving.py:66-72 | the loop with `break` over the keyword table computes the first-match classification |
| `EmailReceiving.ObjectKey` | EmailReceiving.py:76 | definition: the key `f"{subject_folder}/{target_subfolder}/{filename}"`; see ObjectKeyPrefix, KeyRoundTrip and KeyAmbiguousWithSlashInSubject |
| `EmailReceiving.ObjectKeyPrefix` | EmailReceiving.py:76 | every key begins with the subject folder followed by "/" |
| `EmailReceiving.KeyRoundTrip` | EmailReceiving.py:76 | when the folder and subfolder hold no "/", splitting the key at its first two "/" gives back folder, subfolder and original filename |
| `EmailReceiving.KeyAmbiguousWithSlashInSubject` | EmailReceiving.py:76 | the subject is not sanitised: subject "CS/hw" with "a.pdf" and subject "CS" with "hw/a.pdf" give the same key |
| `EmailReceiving.PlanPart` | EmailReceiving.py:60-76 | definition: the skip, classify and key steps for one part; see PlanPartSkip |
| `EmailReceiving.Plan` | EmailReceiving.py:59-76 | definition: the keys of the routed parts in message order; see PlanAppend |
| `EmailReceiving.StoredKeys` | EmailReceiving.py:78-86 | definition: the planned keys whose write completed, in order; see StoredKeysSubsequence |
| `EmailReceiving.Uploads` | EmailReceiving.py:56-88 | definition: the `uploaded_files` list; see UploadsOfOne, UploadsAppend, UploadsMembers and UploadAttachments |
| `EmailReceiving.PlanPartSkip` | EmailReceiving.py:59-88 | a part gives no key, and no error, exactly when it has no (or an empty) filename or no keyword occurs; otherwise exactly one key built from its original filename, under one of the three subfolders |
| `EmailReceiving.UploadsOfOne` | EmailReceiving.py:74-86 | a single part is reported exactly when it is routed and its write succeeded, under its key |
| `EmailReceiving.UploadsAppend` | EmailReceiving.py:56-59 | the reported keys of a message are those of its parts, concatenated in message order |
| `EmailReceiving.StoredKeysSubsequence` | EmailReceiving.py:78-86 | the reported keys are an in-order sub-sequence of the routed keys, the failed writes left out |
| `EmailReceiving.AllStoredUploadsEveryKey` | EmailReceiving.py:78-86 | when every write succeeds, every routed key is reported |
| `EmailReceiving.UploadsMembers` | EmailReceiving.py:59-86 | a key is reported exactly when some part is routed to it and that part's write succeeded |
| `EmailReceiving.NothingRoutedAndStored` | EmailReceiving.py:59-93 | when no part is both routed and written, the list is empty |
| `EmailReceiving.SuccessReport` | EmailReceiving.py:46-93 | on success: every reported key comes from a routed, written part under the stripped subject, and every such key is reported; the list is an in-order sub-sequence of the routed keys and no longer than the attachment list |
| `EmailReceiving.UploadAttachments` | EmailReceiving.py:56-88 | the attachment loop, with its skips and silently dropped failed writes, computes exactly the reported key list |
| `Scenarios.LectureBeforeHomework` | EmailReceiving.py:50-72 | "hw_lecture_notes.pdf" goes to "lecture", because "lecture" is tried first |
| `Scenarios.HomeworkKey` | EmailReceiving.py:76 | subject "CS260" with "HW3_solutions.pdf" succeeds with exactly the key "CS260/hw/HW3_solutions.pdf" |
| `Scenarios.TrimmedSubjectKey` | EmailReceiving.py:46 | subject " CS101 " with "Lecture01.pptx" succeeds with exactly the key "CS101/lecture/Lecture01.pptx" |
| `Scenarios.NoAttachments` | EmailReceiving.py:90-93 | a message with a subject and no attachments succeeds with an empty list |
| `Scenarios.NothingUploaded` | EmailReceiving.py:59-93 | these parts leave no key and still give "success": one with no filename, one with an empty filename, one with no keyword, and a routed part whose write fails |
| `Scenarios.BlankSubject` | EmailReceiving.py:40-46 | a subject of two blanks succeeds and files "HW3_solutions.pdf" under "/hw/HW3_solutions.pdf" |
| `Scenarios.MissingContentReported` | EmailReceiving.py:24-27 | an event without `content` gives exactly the "Missing email content" error |
| `Scenarios.EmptySubjectReported` | EmailReceiving.py:40-43 | an empty Subject header gives exactly the "Missing email subject" error |

## Left out

- Base64 decoding and MIME parsing (EmailReceiving.py:31, 34) call library code whose behaviour is not modelled. They are the `parse` oracle, and `None` stands for any exception raised there.
- `iter_attachments` and `get_filename` (EmailReceiving.py:59-60) are library calls. Their result is the message's given attachment list, in order, each part with an optional filename.
- `get_payload` and `put_object` (EmailReceiving.py:80, 82) are external I/O. They are not modelled separately: whether the `try` body at EmailReceiving.py:79-84 (these two calls, the `print` at :83 and the append at :84) completed without raising is the part's `stored` flag. The attachment bytes are not modelled.
- The bucket name read from the environment (EmailReceiving.py:12) is configuration only. It does not affect keys or the result.
- The `print` logging at EmailReceiving.py:26, 36, 42, 86 and 88 is assumed to return and has no effect on the result. Those calls are outside the `try` at :78-86 (the one at :86 is in its `except`), so a raise there would end the handler with no result dictionary. The `print` at :83 is inside that `try` and is part of the `stored` flag.
- Text.Lower: only the ASCII letters A-Z are lower-cased, while Python's `str.lower` is full Unicode. This never changes a classification: the only non-ASCII code points whose Python lower case holds an ASCII letter are U+212A (to "k") and U+0130 (to "i" followed by U+0307); no keyword holds "k", and every "i" in a keyword is followed by "t" or "g". The key uses the name before lower-casing.
- Text.Strip: the white-space set is the fixed list of code points Python's `str.isspace` accepts. The model works on code points, not on header bytes or encoded words.
- `content` is typed as an optional string. Python's `not raw_email_b64` also treats other falsy values, such as `0` or `[]`, as missing content; those are not modelled.
- The Subject header is taken as a plain string. Header decoding and unfolding are not modelled: the parser stores headers raw and decodes the Subject only when it is fetched at EmailReceiving.py:40.
- The calls at EmailReceiving.py:40 (`msg.get('Subject')`) and :59-60 (`iter_attachments`, `get_filename`) are assumed to return, not raise. They run outside any `try`, so an exception there would end the handler with no result dictionary; `LambdaHandler` is total and has no such outcome.

=== FILE: email_receiving.dfy ===
/**
 The routing decision of the mail-attachment handler: which request-level
 error an event produces, or else which storage keys the attachments of the
 parsed message are written under.

 Decoding the base64 payload and parsing the MIME message are supplied as an
 oracle `parse` (None standing for either failure). Whether the `try` body
 that reads one attachment's payload, writes it to the bucket, logs and
 records its key completed without raising is the part's `stored` flag;
 "the write succeeded" below is shorthand for that flag.
 */
module EmailReceiving {
  import opened Wrappers
  import opened Text
  import opened Sequences

  /** The invocation event; only its `content` entry is read. */
  datatype Event = Event(content: Option<string>)

  /** One attachment part as the MIME layer yields it: its filename, if any,
      and whether the `try` body that reads its payload, writes it to the
      bucket, logs the upload and appends its key completed without raising. */
  datatype Attachment = Attachment(filename: Option<string>, stored: bool)

  /** A parsed message: its Subject header and its attachment parts, in order. */
  datatype Message = Message(subject: Option<string>, attachments: seq<Attachment>)

  /** The dictionary the handler returns: `status`, and either `message`
      or `uploaded_files`. */
  datatype Response = Response(status: string, message: Option<string>, uploadedFiles: Option<seq<string>>)

  const MissingContent: string := "Missing email content"
  const ParseFailed: string := "Failed to parse email"
  const MissingSubject: string := "Missing email subject"

  function ErrorResponse(message: string): Response {
    Response("error", Some(message), None)
  }

  function SuccessResponse(files: seq<string>): Response {
    Response("success", None, Some(files))
  }

  /** Python truthiness of an optional string: present and not empty. */
  predicate Present(s: Option<string>) {
    s.Some? && s.value != ""
  }

  /** One entry of the keyword table: a lower-case keyword and the subfolder
      its attachments go to. */
  datatype Rule = Rule(keyword: string, folder: string)

  /** The keyword table, in the dictionary's insertion order. */
  const KeywordMapping: seq<Rule> := [
    Rule("lecture", "lecture"),
    Rule("hw", "hw"),
    Rule("written assignment", "written assignment")
  ]

  /** Rule `k` matches `lowered` and no earlier rule does. */
  ghost predicate IsFirstMatch(lowered: string, rules: seq<Rule>, k: int) {
    && 0 <= k < |rules|
    && Occurs(rules[k].keyword, lowered)
    && forall j :: 0 <= j < k ==> !Occurs(rules[j].keyword, lowered)
  }

  /** No rule's keyword occurs in `lowered`. */
  ghost predicate NoMatch(lowered: string, rules: seq<Rule>) {
    forall j :: 0 <= j < |rules| ==> !Occurs(rules[j].keyword, lowered)
  }

  /** The scan over the keyword table that stops at the first keyword found. */
  function FirstMatch(lowered: string, rules: seq<Rule>): (k: Option<nat>)
    ensures k.Some? ==> IsFirstMatch(lowered, rules, k.value)
    ensures k.None? <==> NoMatch(lowered, rules)
  {
    if |rules| == 0 then None
    else if Contains(lowered, rules[0].keyword) then Some(0)
    else
      match FirstMatch(lowered, rules[1..])
      case None => None
      case Some(k) => Some(k + 1)
  }

  /** The first match is unique, so any index meeting its description is it. */
  lemma FirstMatchUnique(lowered: string, rules: seq<Rule>, k: int)
    requires IsFirstMatch(lowered, rules, k)
    ensures FirstMatch(lowered, rules) == Some(k)
  {
  }

  /** The subfolder an attachment named `filename` is routed to, if any:
      the folder of the first rule whose keyword occurs in the lower-cased name. */
  function Classify(filename: string): (sub: Option<string>)
    ensures sub.None? <==> NoMatch(Lower(filename), KeywordMapping)
    ensures sub.Some? ==> exists k :: IsFirstMatch(Lower(filename), KeywordMapping, k) && sub.value == KeywordMapping[k].folder
  {
    match FirstMatch(Lower(filename), KeywordMapping)
    case None => None
    case Some(k) => Some(KeywordMapping[k].folder)
  }

  /** Classification tries "lecture", then "hw", then "written assignment"
      against the lower-cased name and takes the first that occurs. */
  lemma ClassifyInOrder(filename: string)
    ensures var l := Lower(filename);
      Classify(filename) ==
        if Occurs("lecture", l) then Some("lecture")
        else if Occurs("hw", l) then Some("hw")
        else if Occurs("written assignment", l) then Some("written assignment")
        else None
  {
    var l := Lower(filename);
    var rules := KeywordMapping;
    assert rules[0].keyword == "lecture" && rules[1].keyword == "hw" && rules[2].keyword == "written assignment";
    if Occurs("lecture", l) {
      FirstMatchUnique(l, rules, 0);
    } else if Occurs("hw", l) {
      FirstMatchUnique(l, rules, 1);
    } else if Occurs("written assignment", l) {
      FirstMatchUnique(l, rules, 2);
    }
  }

  /** Classification does not depend on the letter case of the name. */
  lemma ClassifyIgnoresCase(filename: string)
    ensures Classify(Lower(filename)) == Classify(filename)
  {
    LowerIdempotent(filename);
  }

  /** Every subfolder chosen is one of the table's targets. */
  lemma ClassifyTargets(filename: string)
    ensures Classify(filename).Some? ==> Classify(filename).value in {"lecture", "hw", "written assignment"}
  {
  }

  /** The storage key of an attachment: subject folder, subfolder and the
      filename as given, joined by "/". */
  function ObjectKey(folder: string, sub: string, filename: string): string {
    folder + "/" + sub + "/" + filename
  }

  /** Splits `s` at its first "/". */
  function SplitAtSlash(s: string): (r: Option<(string, string)>)
    ensures r.None? <==> '/' !in s
    ensures r.Some? ==> '/' !in r.value.0 && s == r.value.0 + "/" + r.value.1
  {
    if |s| == 0 then None
    else if s[0] == '/' then Some(([], s[1..]))
    else
      match SplitAtSlash(s[1..])
      case None => None
      case Some(p) => Some(([s[0]] + p.0, p.1))
  }

  /** Reads a key back into subject folder, subfolder and filename. */
  function SplitKey(key: string): Option<(string, string, string)> {
    match SplitAtSlash(key)
    case None => None
    case Some(p) =>
      match SplitAtSlash(p.1)
      case None => None
      case Some(q) => Some((p.0, q.0, q.1))
  }

  lemma {:induction false} SplitAtSlashOf(h: string, t: string)
    requires '/' !in h
    ensures SplitAtSlash(h + "/" + t) == Some((h, t))
  {
    if |h| != 0 {
      var s := h + "/" + t;
      assert s[0] == h[0] && s[1..] == h[1..] + "/" + t;
      SplitAtSlashOf(h[1..], t);
      assert [h[0]] + h[1..] == h;
    } else {
      assert h + "/" + t == "/" + t;
    }
  }

  /** When neither the subject folder nor the subfolder holds a "/", the key
      determines all three of its parts. */
  lemma KeyRoundTrip(folder: string, sub: string, filename: string)
    requires '/' !in folder && '/' !in sub
    ensures SplitKey(ObjectKey(folder, sub, filename)) == Some((folder, sub, filename))
  {
    assert ObjectKey(folder, sub, filename) == folder + "/" + (sub + "/" + filename);
    SplitAtSlashOf(folder, sub + "/" + filename);
    SplitAtSlashOf(sub, filename);
  }

  /** The subject is used unsanitised, so a "/" in it makes two different
      routings write the same key. */
  lemma KeyAmbiguousWithSlashInSubject()
    ensures ObjectKey("CS/hw", "hw", "a.pdf") == ObjectKey("CS", "hw", "hw/a.pdf")
  {
  }

  /** A key the plan intends to write, and whether the write succeeded. */
  datatype Upload = Upload(key: string, stored: bool)

  /** What one attachment part contributes: nothing when it has no filename
      or no keyword occurs in it, otherwise its key. */
  function PlanPart(folder: string, a: Attachment): seq<Upload> {
    if !Present(a.filename) then []
    else
      match Classify(a.filename.value)
      case None => []
      case Some(sub) => [Upload(ObjectKey(folder, sub, a.filename.value), a.stored)]
  }

  /** The keys of all classified attachment parts, in message order. */
  function Plan(folder: string, parts: seq<Attachment>): seq<Upload> {
    if |parts| == 0 then []
    else PlanPart(folder, parts[0]) + Plan(folder, parts[1..])
  }

  function KeysOf(plan: seq<Upload>): seq<string> {
    if |plan| == 0 then []
    else [plan[0].key] + KeysOf(plan[1..])
  }

  /** The keys of the plan whose write succeeded, in order. */
  function StoredKeys(plan: seq<Upload>): seq<string> {
    if |plan| == 0 then []
    else (if plan[0].stored then [plan[0].key] else []) + StoredKeys(plan[1..])
  }

  /** The `uploaded_files` list of a successful invocation. */
  function Uploads(folder: string, parts: seq<Attachment>): seq<string> {
    StoredKeys(Plan(folder, parts))
  }

  /** The handler: the three request-level checks in order, then the
      attachment loop. */
  function LambdaHandler(event: Event, parse: string -> Option<Message>): (r: Response)
    ensures r.status == "error" || r.status == "success"
    ensures r.status == "error" <==> r.message.Some? && r.uploadedFiles.None?
    ensures r.status == "success" <==> r.message.None? && r.uploadedFiles.Some?
  {
    if !Present(event.content) then ErrorResponse(MissingContent)
    else
      match parse(event.content.value)
      case None => ErrorResponse(ParseFailed)
      case Some(msg) =>
        if !Present(msg.subject) then ErrorResponse(MissingSubject)
        else SuccessResponse(Uploads(Strip(msg.subject.value), msg.attachments))
  }

  /* ---------------------------------------------------------------------- */
  /* Request-level error ladder                                              */
  /* ---------------------------------------------------------------------- */

  /** Each error message is produced exactly when its check is the first to
      fail, and the status is "success" exactly when all three pass,
      whatever the outcome of the individual writes. */
  lemma ErrorLadder(event: Event, parse: string -> Option<Message>)
    ensures var r := LambdaHandler(event, parse);
      && (r == ErrorResponse(MissingContent) <==> !Present(event.content))
      && (r == ErrorResponse(ParseFailed) <==>
            Present(event.content) && parse(event.content.value).None?)
      && (r == ErrorResponse(MissingSubject) <==>
            Present(event.content) && parse(event.content.value).Some?
            && !Present(parse(event.content.value).value.subject))
      && (r.status == "success" <==>
            Present(event.content) && parse(event.content.value).Some?
            && Present(parse(event.content.value).value.subject))
  {
  }

  /** A missing or empty `content` is answered before the payload is decoded:
      the parser, and so every attachment, is never consulted. */
  lemma ContentCheckedFirst(event: Event, parse: string -> Option<Message>, other: string -> Option<Message>)
    requires !Present(event.content)
    ensures LambdaHandler(event, parse) == ErrorResponse(MissingContent)
    ensures LambdaHandler(event, other) == LambdaHandler(event, parse)
  {
  }

  /** Non-empty content that fails to decode or parse is answered with the
      parse error and no file list. */
  lemma ParseCheckedBeforeSubject(content: string, parse: string -> Option<Message>)
    requires content != "" && parse(content).None?
    ensures LambdaHandler(Event(Some(content)), parse).message == Some(ParseFailed)
    ensures LambdaHandler(Event(Some(content)), parse).uploadedFiles.None?
  {
  }

  /* ---------------------------------------------------------------------- */
  /* The attachment loop                                                     */
  /* ---------------------------------------------------------------------- */

  /** `key` is the key attachment part `a` is routed to under `folder`. */
  ghost predicate KeyOfPart(folder: string, a: Attachment, key: string) {
    && Present(a.filename)
    && Classify(a.filename.value).Some?
    && key == ObjectKey(folder, Classify(a.filename.value).value, a.filename.value)
  }

  /** A part is skipped, with no key and no error, exactly when it has no
      filename or no keyword occurs in its lower-cased filename; otherwise it
      contributes one key built from its own, not lower-cased, filename. */
  lemma PlanPartSkip(folder: string, a: Attachment)
    ensures PlanPart(folder, a) == [] <==>
      !Present(a.filename) || NoMatch(Lower(a.filename.value), KeywordMapping)
    ensures PlanPart(folder, a) != [] ==>
      exists sub :: sub in {"lecture", "hw", "written assignment"}
        && PlanPart(folder, a) == [Upload(ObjectKey(folder, sub, a.filename.value), a.stored)]
  {
  }

  /** A single part is reported exactly when it is routed and its write succeeded. */
  lemma UploadsOfOne(folder: string, a: Attachment)
    ensures Uploads(folder, [a]) ==
      if Present(a.filename) && Classify(a.filename.value).Some? && a.stored
      then [ObjectKey(folder, Classify(a.filename.value).value, a.filename.value)]
      else []
  {
    assert [a][1..] == [];
    var plan := PlanPart(folder, a);
    assert Plan(folder, [a]) == plan + [];
    assert plan + [] == plan;
    if plan != [] {
      assert plan[1..] == [];
      assert StoredKeys(plan) == (if plan[0].stored then [plan[0].key] else []) + [];
    }
  }

  lemma {:induction false} PlanAppend(folder: string, p: seq<Attachment>, q: seq<Attachment>)
    ensures Plan(folder, p + q) == Plan(folder, p) + Plan(folder, q)
  {
    if |p| == 0 {
      assert p + q == q;
    } else {
      assert (p + q)[1..] == p[1..] + q;
      PlanAppend(folder, p[1..], q);
    }
  }

  lemma {:induction false} StoredKeysAppend(a: seq<Upload>, b: seq<Upload>)
    ensures StoredKeys(a + b) == StoredKeys(a) + StoredKeys(b)
  {
    if |a| == 0 {
      assert a + b == b;
    } else {
      assert (a + b)[0] == a[0];
      assert (a + b)[1..] == a[1..] + b;
      StoredKeysAppend(a[1..], b);
    }
  }

  /** The uploads of a message are those of its parts, concatenated in message order. */
  lemma UploadsAppend(folder: string, p: seq<Attachment>, q: seq<Attachment>)
    ensures Uploads(folder, p + q) == Uploads(folder, p) + Uploads(folder, q)
  {
    PlanAppend(folder, p, q);
    StoredKeysAppend(Plan(folder, p), Plan(folder, q));
  }

  lemma {:induction false} PlanLength(folder: string, parts: seq<Attachment>)
    ensures |Plan(folder, parts)| <= |parts|
  {
    if |parts| != 0 {
      PlanLength(folder, parts[1..]);
    }
  }

  lemma {:induction false} KeysOfLength(plan: seq<Upload>)
    ensures |KeysOf(plan)| == |plan|
  {
    if |plan| != 0 {
      KeysOfLength(plan[1..]);
    }
  }

  /** The stored keys are the plan's keys with the failed writes left out. */
  lemma {:induction false} StoredKeysSubsequence(plan: seq<Upload>)
    ensures IsSubsequence(StoredKeys(plan), KeysOf(plan))
  {
    if |plan| != 0 {
      var rest := plan[1..];
      StoredKeysSubsequence(rest);
      var a, b := StoredKeys(plan), KeysOf(plan);
      assert b[0] == plan[0].key && b[1..] == KeysOf(rest);
      if plan[0].stored {
        assert a[0] == b[0] && a[1..] == StoredKeys(rest);
      } else {
        assert a == StoredKeys(rest);
      }
    }
  }

  /** When every write succeeds, every classified key is reported. */
  lemma {:induction false} AllStoredUploadsEveryKey(folder: string, parts: seq<Attachment>)
    requires forall j :: 0 <= j < |parts| ==> parts[j].stored
    ensures Uploads(folder, parts) == KeysOf(Plan(folder, parts))
  {
    if |parts| != 0 {
      AllStoredUploadsEveryKey(folder, parts[1..]);
      var head := PlanPart(folder, parts[0]);
      StoredKeysAppend(head, Plan(folder, parts[1..]));
      KeysOfAppend(head, Plan(folder, parts[1..]));
    }
  }

  lemma {:induction false} KeysOfAppend(a: seq<Upload>, b: seq<Upload>)
    ensures KeysOf(a + b) == KeysOf(a) + KeysOf(b)
  {
    if |a| == 0 {
      assert a + b == b;
    } else {
      assert (a + b)[1..] == a[1..] + b;
      KeysOfAppend(a[1..], b);
    }
  }

  /** A key is reported exactly when some part is routed to it and that
      part's write succeeded. */
  lemma {:induction false} UploadsMembers(folder: string, parts: seq<Attachment>, key: string)
    ensures key in Uploads(folder, parts) <==>
      exists j :: 0 <= j < |parts| && parts[j].stored && KeyOfPart(folder, parts[j], key)
  {
    if |parts| != 0 {
      var rest := parts[1..];
      UploadsMembers(folder, rest, key);
      assert parts == [parts[0]] + rest;
      UploadsAppend(folder, [parts[0]], rest);
      assert Plan(folder, [parts[0]]) == PlanPart(folder, parts[0]);
      if key in Uploads(folder, parts) {
        if key in Uploads(folder, [parts[0]]) {
          assert parts[0].stored && KeyOfPart(folder, parts[0], key);
        } else {
          var j :| 0 <= j < |rest| && rest[j].stored && KeyOfPart(folder, rest[j], key);
          assert parts[j + 1] == rest[j];
        }
      }
      if exists j :: 0 <= j < |parts| && parts[j].stored && KeyOfPart(folder, parts[j], key) {
        var j :| 0 <= j < |parts| && parts[j].stored && KeyOfPart(folder, parts[j], key);
        if j == 0 {
          assert key in Uploads(folder, [parts[0]]);
        } else {
          assert rest[j - 1] == parts[j];
        }
      }
    }
  }

  /** When no part is both routed and written, nothing is reported. */
  lemma NothingRoutedAndStored(folder: string, parts: seq<Attachment>)
    requires forall j :: 0 <= j < |parts| ==>
      !parts[j].stored || !Present(parts[j].filename) || Classify(parts[j].filename.value).None?
    ensures Uploads(folder, parts) == []
  {
    var files := Uploads(folder, parts);
    if files != [] {
      UploadsMembers(folder, parts, files[0]);
      assert false;
    }
  }

  /** What a successful invocation reports: only keys of routed parts whose
      write succeeded, each under the stripped subject, in message order as a
      sub-sequence of all routed keys, and no more keys than attachments.
      These clauses do not fix how often a key repeats when two parts share a
      name; UploadsOfOne with UploadsAppend pins the exact list, one entry per
      routed and written part. */
  lemma SuccessReport(event: Event, parse: string -> Option<Message>)
    requires Present(event.content) && parse(event.content.value).Some?
    requires Present(parse(event.content.value).value.subject)
    ensures var msg := parse(event.content.value).value;
      var folder := Strip(msg.subject.value);
      var r := LambdaHandler(event, parse);
      && r.status == "success"
      && IsSubsequence(r.uploadedFiles.value, KeysOf(Plan(folder, msg.attachments)))
      && |r.uploadedFiles.value| <= |msg.attachments|
      && forall key :: key in r.uploadedFiles.value <==>
           exists j :: 0 <= j < |msg.attachments| && msg.attachments[j].stored
             && KeyOfPart(folder, msg.attachments[j], key)
  {
    var msg := parse(event.content.value).value;
    var folder := Strip(msg.subject.value);
    var plan := Plan(folder, msg.attachments);
    StoredKeysSubsequence(plan);
    SubsequenceLength(StoredKeys(plan), KeysOf(plan));
    KeysOfLength(plan);
    PlanLength(folder, msg.attachments);
    forall key | true
      ensures key in Uploads(folder, msg.attachments) <==>
        exists j :: 0 <= j < |msg.attachments| && msg.attachments[j].stored
          && KeyOfPart(folder, msg.attachments[j], key)
    {
      UploadsMembers(folder, msg.attachments, key);
    }
  }

  /** The emptiness test is made on the subject before it is stripped, so a
      subject of white space alone passes it: the invocation succeeds and the
      subject folder is empty, every key starting with "/". */
  lemma WhitespaceSubjectPasses(event: Event, parse: string -> Option<Message>)
    requires Present(event.content) && parse(event.content.value).Some?
    requires Present(parse(event.content.value).value.subject)
    requires AllSpace(parse(event.content.value).value.subject.value)
    ensures LambdaHandler(event, parse).status == "success"
    ensures forall key :: key in LambdaHandler(event, parse).uploadedFiles.value ==> "/" <= key
  {
    var msg := parse(event.content.value).value;
    assert Strip(msg.subject.value) == "";
    var files := LambdaHandler(event, parse).uploadedFiles.value;
    assert files == Uploads("", msg.attachments);
    forall key | key in files
      ensures "/" <= key
    {
      UploadsMembers("", msg.attachments, key);
      var j :| 0 <= j < |msg.attachments| && msg.attachments[j].stored && KeyOfPart("", msg.attachments[j], key);
      var f := msg.attachments[j].filename.value;
      ObjectKeyPrefix("", Classify(f).value, f);
    }
  }

  /** Every key begins with its subject folder followed by "/". */
  lemma ObjectKeyPrefix(folder: string, sub: string, filename: string)
    ensures folder + "/" <= ObjectKey(folder, sub, filename)
  {
  }

  /* ---------------------------------------------------------------------- */
  /* The loops as written                                                    */
  /* ---------------------------------------------------------------------- */

  /** The keyword scan over the table in order, stopping at the first hit. */
  method ScanKeywords(filename: string) returns (target: Option<string>)
    ensures target == Classify(filename)
  {
    var lowered := Lower(filename);
    var k := 0;
    while k < |KeywordMapping|
      invariant 0 <= k <= |KeywordMapping|
      invariant forall j :: 0 <= j < k ==> !Occurs(KeywordMapping[j].keyword, lowered)
    {
      if Contains(lowered, KeywordMapping[k].keyword) {
        FirstMatchUnique(lowered, KeywordMapping, k);
        return Some(KeywordMapping[k].folder);
      }
      k := k + 1;
    }
    return None;
  }

  /** The attachment loop: skip parts without a filename or keyword, build
      the key, and record it only when the write succeeded. */
  method UploadAttachments(folder: string, parts: seq<Attachment>) returns (uploaded: seq<string>)
    ensures uploaded == Uploads(folder, parts)
  {
    uploaded := [];
    for i := 0 to |parts|
      invariant uploaded == Uploads(folder, parts[..i])
    {
      var part := parts[i];
      assert parts[..i + 1] == parts[..i] + [part];
      UploadsAppend(folder, parts[..i], [part]);
      assert Plan(folder, [part]) == PlanPart(folder, part);
      if Present(part.filename) {
        var filename := part.filename.value;
        var target := ScanKeywords(filename);
        if target.Some? {
          var key := ObjectKey(folder, target.value, filename);
          if part.stored {
            uploaded := uploaded + [key];
          }
        }
      }
    }
    assert parts[..|parts|] == parts;
  }
}

=== FILE: scenarios.dfy ===
/** Worked examples of the routing decision on concrete messages. */
module Scenarios {
  import opened Wrappers
  import opened Text
  import opened EmailReceiving

  /** A parser that yields `m` for any payload. */
  function Yields(m: Message): string -> Option<Message> {
    _ => Some(m)
  }

  const Payload: string := "UmVjZWl2ZWQ="

  /** A payload that parses to `m`, whose subject is present, is answered
      with the uploads of `m`'s parts under the stripped subject. */
  lemma Routed(m: Message, folder: string)
    requires Present(m.subject) && Strip(m.subject.value) == folder
    ensures LambdaHandler(Event(Some(Payload)), Yields(m)) == SuccessResponse(Uploads(folder, m.attachments))
  {
  }

  lemma HomeworkUploads()
    ensures Uploads("CS260", [Attachment(Some("HW3_solutions.pdf"), true)]) == ["CS260/hw/HW3_solutions.pdf"]
  {
    HomeworkClassified();
    UploadsOfOne("CS260", Attachment(Some("HW3_solutions.pdf"), true));
    KeyHomework();
  }

  lemma LectureUploads()
    ensures Uploads("CS101", [Attachment(Some("Lecture01.pptx"), true)]) == ["CS101/lecture/Lecture01.pptx"]
  {
    LectureClassified();
    UploadsOfOne("CS101", Attachment(Some("Lecture01.pptx"), true));
    KeyLecture();
  }

  lemma BlankUploads()
    ensures Uploads("", [Attachment(Some("HW3_solutions.pdf"), true)]) == ["/hw/HW3_solutions.pdf"]
  {
    HomeworkClassified();
    UploadsOfOne("", Attachment(Some("HW3_solutions.pdf"), true));
    KeyBlank();
  }

  lemma LowerNotes()
    ensures Lower("hw_lecture_notes.pdf") == "hw_lecture_notes.pdf"
  {
  }

  lemma LowerSolutions()
    ensures Lower("HW3_solutions.pdf") == "hw3_solutions.pdf"
  {
  }

  /** A name holding both "hw" and "lecture" goes to the lecture folder,
      because "lecture" is tried first. */
  lemma LectureBeforeHomework()
    ensures Classify("hw_lecture_notes.pdf") == Some("lecture")
  {
    LowerNotes();
    assert OccursAt("lecture", "hw_lecture_notes.pdf", 3);
    ClassifyInOrder("hw_lecture_notes.pdf");
  }

  lemma HomeworkClassified()
    ensures Classify("HW3_solutions.pdf") == Some("hw")
  {
    LowerSolutions();
    AbsentCodePoint("lecture", "hw3_solutions.pdf", 'e');
    assert OccursAt("hw", "hw3_solutions.pdf", 0);
    ClassifyInOrder("HW3_solutions.pdf");
  }

  lemma LowerLecture()
    ensures Lower("Lecture01.pptx") == "lecture01.pptx"
  {
  }

  lemma LectureClassified()
    ensures Classify("Lecture01.pptx") == Some("lecture")
  {
    LowerLecture();
    assert OccursAt("lecture", "lecture01.pptx", 0);
    ClassifyInOrder("Lecture01.pptx");
  }

  lemma LowerSyllabus()
    ensures Lower("syllabus.pdf") == "syllabus.pdf"
  {
  }

  lemma SyllabusHasNoKeyword()
    ensures !Occurs("lecture", "syllabus.pdf")
    ensures !Occurs("hw", "syllabus.pdf")
    ensures !Occurs("written assignment", "syllabus.pdf")
  {
    AbsentCodePoint("lecture", "syllabus.pdf", 'e');
    AbsentCodePoint("hw", "syllabus.pdf", 'h');
    AbsentCodePoint("written assignment", "syllabus.pdf", 'w');
  }

  lemma SyllabusUnclassified()
    ensures Classify("syllabus.pdf") == None
  {
    LowerSyllabus();
    SyllabusHasNoKeyword();
    ClassifyInOrder("syllabus.pdf");
  }

  lemma StripKeeps(s: string)
    requires |s| > 0 && !IsSpace(s[0]) && !IsSpace(s[|s| - 1])
    ensures Strip(s) == s
  {
  }

  lemma KeyHomework()
    ensures ObjectKey("CS260", "hw", "HW3_solutions.pdf") == "CS260/hw/HW3_solutions.pdf"
  {
  }

  lemma KeyLecture()
    ensures ObjectKey("CS101", "lecture", "Lecture01.pptx") == "CS101/lecture/Lecture01.pptx"
  {
  }

  lemma KeyBlank()
    ensures ObjectKey("", "hw", "HW3_solutions.pdf") == "/hw/HW3_solutions.pdf"
  {
  }

  /** Subject "CS260" and attachment "HW3_solutions.pdf" give the key
      "CS260/hw/HW3_solutions.pdf". */
  lemma HomeworkKey()
    ensures LambdaHandler(Event(Some(Payload)),
              Yields(Message(Some("CS260"), [Attachment(Some("HW3_solutions.pdf"), true)])))
            == SuccessResponse(["CS260/hw/HW3_solutions.pdf"])
  {
    StripKeeps("CS260");
    HomeworkUploads();
    Routed(Message(Some("CS260"), [Attachment(Some("HW3_solutions.pdf"), true)]), "CS260");
  }

  lemma StripCS101()
    ensures Strip(" CS101 ") == "CS101"
  {
    var s := " CS101 ";
    assert s[1..6] == "CS101" && CutAt(s, 1, 6);
    StripUnique("CS101", s);
  }

  /** The subject " CS101 " is stripped to the folder "CS101". */
  lemma TrimmedSubjectKey()
    ensures LambdaHandler(Event(Some(Payload)),
              Yields(Message(Some(" CS101 "), [Attachment(Some("Lecture01.pptx"), true)])))
            == SuccessResponse(["CS101/lecture/Lecture01.pptx"])
  {
    StripCS101();
    LectureUploads();
    Routed(Message(Some(" CS101 "), [Attachment(Some("Lecture01.pptx"), true)]), "CS101");
  }

  /** A message with a subject and no attachments succeeds with no keys. */
  lemma NoAttachments()
    ensures LambdaHandler(Event(Some(Payload)), Yields(Message(Some("CS260"), [])))
            == SuccessResponse([])
  {
  }

  /** Parts without a filename, with an empty one, with no keyword, and a
      routed part whose write fails. */
  const Unreported: seq<Attachment> := [
    Attachment(None, true),
    Attachment(Some(""), true),
    Attachment(Some("syllabus.pdf"), true),
    Attachment(Some("HW3_solutions.pdf"), false)
  ]

  lemma UnreportedNeverWritten()
    ensures forall j :: 0 <= j < |Unreported| ==>
      !Unreported[j].stored || !Present(Unreported[j].filename) || Classify(Unreported[j].filename.value).None?
  {
    forall j | 0 <= j < |Unreported|
      ensures !Unreported[j].stored || !Present(Unreported[j].filename) || Classify(Unreported[j].filename.value).None?
    {
      if j == 2 {
        assert Unreported[j].filename.value == "syllabus.pdf";
        SyllabusUnclassified();
      } else {
        assert j == 0 || j == 1 || j == 3;
      }
    }
  }

  /** None of those parts leaves a key, and the status is still "success". */
  lemma NothingUploaded()
    ensures LambdaHandler(Event(Some(Payload)), Yields(Message(Some("CS260"), Unreported)))
            == SuccessResponse([])
  {
    StripKeeps("CS260");
    UnreportedNeverWritten();
    NothingRoutedAndStored("CS260", Unreported);
    Routed(Message(Some("CS260"), Unreported), "CS260");
  }

  lemma StripBlank()
    ensures Strip("  ") == ""
  {
  }

  /** A subject of blanks passes the emptiness test and yields an empty folder. */
  lemma BlankSubject()
    ensures LambdaHandler(Event(Some(Payload)),
              Yields(Message(Some("  "), [Attachment(Some("HW3_solutions.pdf"), true)])))
            == SuccessResponse(["/hw/HW3_solutions.pdf"])
  {
    StripBlank();
    BlankUploads();
    Routed(Message(Some("  "), [Attachment(Some("HW3_solutions.pdf"), true)]), "");
  }

  /** An absent `content` is reported before anything else. */
  lemma MissingContentReported()
    ensures LambdaHandler(Event(None), Yields(Message(Some("CS260"), [])))
            == Response("error", Some("Missing email content"), None)
  {
  }

  /** An empty Subject header is reported as a missing subject. */
  lemma EmptySubjectReported()
    ensures LambdaHandler(Event(Some(Payload)), Yields(Message(Some(""), [])))
            == Response("error", Some("Missing email subject"), None)
  {
  }
}

=== FILE: sequences.dfy ===
/** Order-preserving sub-sequences. */
module Sequences {

  /** `a` can be obtained from `b` by deleting elements, keeping the order of the rest. */
  predicate IsSubsequence<T(==)>(a: seq<T>, b: seq<T>) {
    if |a| == 0 then true
    else if |b| == 0 then false
    else (a[0] == b[0] && IsSubsequence(a[1..], b[1..])) || IsSubsequence(a, b[1..])
  }

  /** A sub-sequence is never longer than the sequence it is taken from. */
  lemma {:induction false} SubsequenceLength<T>(a: seq<T>, b: seq<T>)
    requires IsSubsequence(a, b)
    ensures |a| <= |b|
  {
    if |a| != 0 {
      if a[0] == b[0] && IsSubsequence(a[1..], b[1..]) {
        SubsequenceLength(a[1..], b[1..]);
      } else {
        SubsequenceLength(a, b[1..]);
      }
    }
  }
}

=== FILE: text.dfy ===
/**
 The string operations the router relies on, as Python defines them on `str`:
 `strip()` with no argument, `lower()` (ASCII letters only) and the `in`
 substring test.  Strip and the substring test each have a declarative
 definition and a proof that the two agree; Lower is defined directly,
 code point by code point, shown idempotent, and checked letter by letter
 against the alphabet written out.
 */
module Text {

  /** Python's `str.isspace()` for a single code point: the ASCII controls
      TAB..CR, the separators 0x1C..0x1F, SPACE, and the Unicode white space
      code points NEL, NBSP, OGHAM SPACE MARK, EN QUAD..HAIR SPACE, LINE and
      PARAGRAPH SEPARATOR, NARROW NBSP, MEDIUM MATHEMATICAL SPACE and
      IDEOGRAPHIC SPACE. */
  predicate IsSpace(c: char) {
    var n := c as int;
    || (0x09 <= n <= 0x0D)
    || (0x1C <= n <= 0x20)
    || n == 0x85
    || n == 0xA0
    || n == 0x1680
    || (0x2000 <= n <= 0x200A)
    || n == 0x2028
    || n == 0x2029
    || n == 0x202F
    || n == 0x205F
    || n == 0x3000
  }

  predicate AllSpace(s: string) {
    forall i :: 0 <= i < |s| ==> IsSpace(s[i])
  }

  /** Length of the longest all-white-space prefix of `s`. */
  function LeadingSpace(s: string): (n: nat)
    ensures n <= |s|
    ensures AllSpace(s[..n])
    ensures n < |s| ==> !IsSpace(s[n])
  {
    if |s| == 0 || !IsSpace(s[0]) then 0
    else
      var m := LeadingSpace(s[1..]);
      assert s[..m + 1] == [s[0]] + s[1..][..m];
      m + 1
  }

  /** Length of the longest all-white-space suffix of `s`. */
  function TrailingSpace(s: string): (n: nat)
    ensures n <= |s|
    ensures AllSpace(s[|s| - n..])
    ensures n < |s| ==> !IsSpace(s[|s| - n - 1])
  {
    if |s| == 0 || !IsSpace(s[|s| - 1]) then 0
    else
      var init := s[..|s| - 1];
      var m := TrailingSpace(init);
      assert s[|s| - (m + 1)..] == init[|init| - m..] + [s[|s| - 1]];
      m + 1
  }

  /** `r` is what remains of `s` once white space is removed from both ends:
      a contiguous slice of `s` whose ends are not white space, with only
      white space cut away around it. */
  ghost predicate IsStripOf(r: string, s: string) {
    && Trimmed(r)
    && exists i, j :: CutAt(s, i, j) && r == s[i..j]
  }

  /** Neither end of `r` is white space. */
  ghost predicate Trimmed(r: string) {
    r == [] || (!IsSpace(r[0]) && !IsSpace(r[|r| - 1]))
  }

  /** Everything of `s` before `i` and from `j` on is white space. */
  ghost predicate CutAt(s: string, i: int, j: int) {
    0 <= i <= j <= |s| && AllSpace(s[..i]) && AllSpace(s[j..])
  }

  /** Python's `s.strip()`: the result is empty exactly when `s` is all white space. */
  function Strip(s: string): (r: string)
    ensures IsStripOf(r, s)
    ensures r == [] <==> AllSpace(s)
  {
    var i := LeadingSpace(s);
    if i == |s| then
      assert s[..i] == s && s[i..] == [];
      assert CutAt(s, i, i);
      []
    else
      var t := TrailingSpace(s);
      var j := |s| - t;
      assert i < j by {
        if j <= i {
          SpaceInSuffix(s, j, i);
        }
      }
      assert CutAt(s, i, j);
      assert s[i..j][0] == s[i] && s[i..j][j - i - 1] == s[j - 1];
      s[i..j]
  }

  /** The declarative description pins the stripped string down uniquely. */
  lemma StripUnique(r: string, s: string)
    requires IsStripOf(r, s)
    ensures r == Strip(s)
  {
    var i, j :| CutAt(s, i, j) && r == s[i..j];
    StripCutUnique(s, i, j);
  }

  lemma StripCutUnique(s: string, i: int, j: int)
    requires CutAt(s, i, j) && Trimmed(s[i..j])
    ensures s[i..j] == Strip(s)
  {
    var r' := Strip(s);
    var i', j' :| CutAt(s, i', j') && r' == s[i'..j'];
    if i == j {
      AllSpaceJoin(s, i, j);
    } else if i' == j' {
      // s would be all white space, yet the slice starts with a non-space code point
      assert false;
    } else {
      SameCut(s, i, j, i', j');
    }
  }

  /** Two cuts that both leave non-space code points at their ends are the same cut. */
  lemma SameCut(s: string, i: int, j: int, i': int, j': int)
    requires CutAt(s, i, j) && CutAt(s, i', j') && i < j && i' < j'
    requires Trimmed(s[i..j]) && Trimmed(s[i'..j'])
    ensures i == i' && j == j'
  {
    assert s[i..j][0] == s[i] && s[i..j][j - i - 1] == s[j - 1];
    assert s[i'..j'][0] == s[i'] && s[i'..j'][j' - i' - 1] == s[j' - 1];
    if i < i' {
      SpaceInPrefix(s, i', i);
      assert false;
    }
    if i' < i {
      SpaceInPrefix(s, i, i');
      assert false;
    }
    if j < j' {
      SpaceInSuffix(s, j, j' - 1);
      assert false;
    }
    if j' < j {
      SpaceInSuffix(s, j', j - 1);
      assert false;
    }
  }

  lemma SpaceInPrefix(s: string, i: int, k: int)
    requires 0 <= k < i <= |s| && AllSpace(s[..i])
    ensures IsSpace(s[k])
  {
  }

  lemma SpaceInSuffix(s: string, j: int, k: int)
    requires 0 <= j <= k < |s| && AllSpace(s[j..])
    ensures IsSpace(s[k])
  {
  }

  /** Stripping twice strips nothing more. */
  lemma StripIdempotent(s: string)
    ensures Strip(Strip(s)) == Strip(s)
  {
  }

  lemma AllSpaceJoin(s: string, i: int, j: int)
    requires 0 <= i <= j <= |s|
    requires AllSpace(s[..i]) && AllSpace(s[i..j]) && AllSpace(s[j..])
    ensures AllSpace(s)
  {
  }

  /** Python's `str.lower()` restricted to ASCII: 'A'..'Z' become 'a'..'z',
      every other code point is left as it is. */
  function LowerChar(c: char): (r: char)
    ensures !IsUpper(r)
    ensures !IsUpper(c) ==> r == c
  {
    if IsUpper(c) then (c as int - 'A' as int + 'a' as int) as char else c
  }

  predicate IsUpper(c: char) {
    'A' <= c <= 'Z'
  }

  const UpperAlphabet: string := "ABCDEFGHIJKLMNOPQRSTUVWXYZ"
  const LowerAlphabet: string := "abcdefghijklmnopqrstuvwxyz"

  /** Against the alphabet written out: the `i`-th capital letter is lower-cased
      to the `i`-th small letter, and the capitals are exactly 'A'..'Z'. */
  lemma LowerCharAlphabet(i: int)
    requires 0 <= i < 26
    ensures IsUpper(UpperAlphabet[i])
    ensures LowerChar(UpperAlphabet[i]) == LowerAlphabet[i]
  {
  }

  /** The upper-case test accepts exactly the letters of the written-out alphabet. */
  lemma UpperIsAlphabet(c: char)
    ensures IsUpper(c) <==> c in UpperAlphabet
  {
    if IsUpper(c) {
      var i := c as int - 'A' as int;
      assert UpperAlphabet[i] == c;
    }
  }

  /** Lower-cases `s` code point by code point. */
  function Lower(s: string): string {
    seq(|s|, i requires 0 <= i < |s| => LowerChar(s[i]))
  }

  /** The lower-cased string holds no upper-case letter, and lower-casing it
      again changes nothing. */
  lemma LowerIdempotent(s: string)
    ensures forall i :: 0 <= i < |s| ==> !IsUpper(Lower(s)[i])
    ensures Lower(Lower(s)) == Lower(s)
  {
  }

  /** A needle holding a code point that `hay` lacks does not occur in `hay`. */
  lemma AbsentCodePoint(needle: string, hay: string, c: char)
    requires c in needle && c !in hay
    ensures !Occurs(needle, hay)
  {
  }

  /** `needle` occurs in `hay` as a contiguous block: Python's `needle in hay`.
      The empty string occurs in every string. */
  ghost predicate Occurs(needle: string, hay: string) {
    exists i :: 0 <= i <= |hay| - |needle| && OccursAt(needle, hay, i)
  }

  /** `needle` occurs in `hay` starting at index `i`. */
  ghost predicate OccursAt(needle: string, hay: string, i: int) {
    0 <= i <= |hay| - |needle| && hay[i..i + |needle|] == needle
  }

  /** Substring test by scanning `hay` from the left. */
  function Contains(hay: string, needle: string): (r: bool)
    ensures r <==> Occurs(needle, hay)
  {
    if |hay| < |needle| then false
    else if hay[..|needle|] == needle then
      assert OccursAt(needle, hay, 0);
      true
    else
      OccursTail(needle, hay);
      Contains(hay[1..], needle)
  }

  /** When `needle` is not a prefix of `hay`, it occurs in `hay` exactly when
      it occurs in `hay` without its first code point. */
  lemma OccursTail(needle: string, hay: string)
    requires |needle| <= |hay|
    requires hay[..|needle|] != needle
    ensures Occurs(needle, hay) <==> Occurs(needle, hay[1..])
  {
    var n := |needle|;
    if Occurs(needle, hay) {
      var i :| 0 <= i <= |hay| - n && OccursAt(needle, hay, i);
      assert i != 0;
      TailSlice(hay, i - 1, n);
      assert OccursAt(needle, hay[1..], i - 1);
    }
    if Occurs(needle, hay[1..]) {
      var i :| 0 <= i <= |hay[1..]| - n && OccursAt(needle, hay[1..], i);
      TailSlice(hay, i, n);
      assert OccursAt(needle, hay, i + 1);
    }
  }

  lemma TailSlice(hay: string, i: int, n: int)
    requires 0 <= i && 0 <= n && i + n < |hay|
    ensures hay[1..][i..i + n] == hay[i + 1..i + 1 + n]
  {
  }
}

=== FILE: wrappers.dfy ===
/** Optional values: Python's `None` versus a present value. */
module Wrappers {

  datatype Option<+T> = None | Some(value: T)
}
